=== FILE: README.md ===
# Screen Flow Analyzer: session and history model

A Dafny model of the client session of the Screen Flow Analyzer and of its
`/api/analyze` server handler. The user attaches screenshots, edits an
analysis prompt and submits both to a multimodal model through the server.
Completed analyses are archived, newest first, in a history of at most fifty
entries. The user can browse the history, step through it, delete entries or
clear it.

The whole client state is one immutable record, `Session.State`, with the
fields of the React component: `images`, `prompt`, `results`, `history`,
`currentHistoryIndex`, `viewingHistory`, `apiKey` and `analyzing`. Every
handler is a pure function from a state to a state. `Session.Step` dispatches
one `Session.Action` to the handler it names.

Modules:

- `Wrappers`: `Option`, for JSON fields that may be absent.
- `Seqs`: `Filter` (JavaScript's `Array.prototype.filter`) with its order and
  membership lemmas, `Reverse`, and cardinality facts.
- `Text`: `startsWith`, and `split(',')[1]` on a data URL, built on a
  helper that finds the first occurrence of a character.
- `Wire`: the JSON shapes exchanged by client and server.
- `Images`: attaching a batch of files (`handleFiles`), `removeImage`, and the
  image-to-request-block mapping.
- `History`: submissions, insertion at the front capped at fifty, deletion by id.
- `Server`: the `/api/analyze` handler.
- `Session`: the component state, its handlers and the state machine.
- `Pipeline`: client request, server handler and client reply, end to end.

Inputs the code takes from its environment are parameters:

- The order in which `FileReader` reads finish is a list of file positions.
- `Date.now()` readings and ISO timestamps are plain values.
- The reply of `fetch` is a parsed JSON value, or a throw.
- The provider's reply is an abstract `Server.Upstream`.
- The history and prompt read from local storage are arguments of `Session.Init`.

Behaviour worth noting in the code:

- `analyzeScreenshots` does not refuse an empty prompt. Only the key and the
  image count are checked.
- Attached images are appended in read-completion order, not in the order the
  files were given (see Findings).
- The history cursor ranges over the whole history. The code has no search
  filter, projects, tags, prompt library or drag reordering.
- After a successful analysis the cursor is 0 while `viewingHistory` is false.
- Deletion returns nothing and reports no not-found signal.

## Model

| member | source | states |
|---|---|---|
| Server.Analyze | server.js:16-52 | A missing or empty key or image list gives status 400 "Missing required parameters" and no provider call. The prompt is not validated. Otherwise the content sent has one element more than the images: the prompt verbatim first, then the images in their order, unmodified. A provider answer gives 200 with the text of its first block. An empty answer gives 500 with the message of the TypeError raised by reading its first block. A thrown error gives 500 with its message, or "Failed to analyze screenshots" when the message is empty. |
| Images.HandleFiles | src/App.jsx:83-102 | The existing images stay an unchanged prefix. The batch is appended only once every image file has been read, and then it holds exactly as many items as there are image files. Item k is the file whose read finished k-th, so it always comes from an `image/` file. |
| Images.CompletionBound | src/App.jsx:85-97 | No more reads can finish than there are image files. When that many have finished, every image file has been read. So the first append condition (as many reads as files) can only hold when the second (as many reads as image files) does, and the batch is appended exactly when every image file has been read. |
| Images.EachImageFileAppendedOnce | src/App.jsx:83-102 | In a completed batch every image file appears once, with its name, type and data URL. |
| Images.CompletionOrderCounterexample | src/App.jsx:88-96 | Two image files whose reads finish in reverse order are attached in reverse order. |
| Images.HandleFilesInOrder | src/App.jsx:83-102 | The corrected attach: whatever the completion order, the appended images are the image files in the order they were given. Existing images stay an unchanged prefix. |
| Images.RemoveImage | src/App.jsx:104-106 | An image survives if and only if its id differs from the given id. The list shrinks exactly when some image has that id, and nothing changes when none has. |
| Images.RemoveImageKeepsOrder | src/App.jsx:104-106 | Removal keeps relative order: it distributes over concatenation. The survivors are the original images read at strictly increasing positions. |
| Images.BlockCarriesPayload | src/App.jsx:115-122 | An image whose data URL is `header,payload` is sent as a block with its file type and exactly that payload. |
| Text.SplitSecond | src/App.jsx:120 | `split(',')[1]` is present exactly when the string holds a comma, and the piece it yields holds no comma. |
| Text.SplitSecondOfDataUrl | src/App.jsx:120 | `split(',')[1]` of `header,payload` returns the payload. |
| Text.SplitSecondDropsLaterFields | src/App.jsx:120 | Text after a second comma is not part of the data sent. |
| History.InsertFront | src/App.jsx:152 | The new history has length min(old + 1, 50). Entry 0 is the new submission. The old entries follow in their order, and the oldest is dropped at capacity. |
| History.DeleteById | src/App.jsx:230 | An entry survives if and only if its id differs from the given id. The history shrinks exactly when some entry has that id, and nothing changes when none has. |
| History.DeleteByIdKeepsOrder | src/App.jsx:230 | Deletion keeps the order of the survivors: it distributes over concatenation. |
| History.InsertAllKeepsNewest | src/App.jsx:152 | After any number of successive insertions the history is the newest fifty submissions, newest first, followed by the earlier entries while room remains. |
| History.FiftyFirstEvictsOldest | src/App.jsx:152 | Fifty-one distinct submissions into an empty history leave fifty. The first one is gone and all the others are present. |
| Session.Init | src/App.jsx:22-37 | The initial prompt is the saved one when one is saved, else the default, so it is never empty. The history is the saved one. No images, no result, nothing viewed, cursor -1, empty key. |
| Session.AnalyzeScreenshots | src/App.jsx:108-162 | A request goes out if and only if the key is non-empty and there is an image. Otherwise nothing changes. The request has one image block per image, in image order, and the key and prompt verbatim. In flight: `analyzing` is set and `results` is null. On success the submission is inserted at the front, the cursor becomes 0 and viewing ends. On an error reply or a throw, history and cursor are unchanged and the result carries the error. Images, prompt and key never change, and `analyzing` is false afterwards. |
| Session.SuccessArchivesDraft | src/App.jsx:139-154 | After a success the newest entry holds the draft's images (name and data URL, in order), the draft prompt and the reply's analysis. The older entries follow in order, within fifty. |
| Session.RestoreThenArchive | src/App.jsx:210-214 | Images restored from an entry carry back exactly the stored names and data URLs, in order. |
| Session.LoadFromHistory | src/App.jsx:207-220 | An out-of-range index changes nothing. A valid one sets viewing and the cursor, and shows the entry's prompt, analysis and images. The images are copies with the placeholder type `image/png`. The history is untouched. |
| Session.NavigateHistory | src/App.jsx:222-227 | The cursor moves to cursor + direction only when that is a valid index, whether or not an entry is being viewed. The entry there is shown, its images carrying the placeholder type `image/png`, and the history, key and `analyzing` stay. Otherwise nothing changes. |
| Session.NavigateForwardThenBack | src/App.jsx:222-227 | Stepping forward and back again shows the entry one started from. |
| Session.DeleteFromHistory | src/App.jsx:229-237 | The new history is the old one with the entries carrying the id removed and no others, the survivors in their order. Deleting the viewed entry returns to composing: cursor -1, not viewing, no result, no images. Otherwise cursor, flags, result and images are unchanged. The prompt is never touched. |
| Session.DeleteLeavesStaleCursor | src/App.jsx:229-237 | Viewing the second of two entries and deleting the first leaves a viewed cursor past the end of the history. |
| Session.DeleteFromHistoryFixed | src/App.jsx:229-237 | The corrected deletion gives the same history as the original and never touches prompt, key or `analyzing`. When an entry other than the viewed one is deleted, the cursor moves so that it still points at the viewed entry. It keeps the cursor valid. |
| Session.FixOnlyMovesCursor | src/App.jsx:229-237 | The corrected deletion differs from the deletion as written only in the cursor. |
| Session.InitCursorValid | src/App.jsx:36-37 | The state on mount views nothing, so the cursor invariant holds from the start. |
| Session.ClearHistory | src/App.jsx:239-247 | An unconfirmed clear changes nothing. A confirmed one empties the history, sets the cursor to -1 and ends viewing, but keeps the images, result, prompt, key and `analyzing`. |
| Session.NewAnalysis | src/App.jsx:398-405 | Back to composing: not viewing, cursor -1, no images, no result. The history and prompt stay. |
| Session.ResetPrompt | src/App.jsx:176-181 | The prompt becomes the non-empty default and nothing else changes. |
| Session.Step | src/App.jsx:269-306 | The component as written, one action at a time. Typing in the prompt box changes the prompt and nothing else; typing in the key box changes the key and nothing else. No other action changes the key, and only those editing, restoring or resetting the prompt change it. |
| Session.StepFixed | src/App.jsx:83-237 | The component with the two corrected handlers. It agrees with the component as written on every field except the cursor (changed only by a deletion) and the attached images (changed only by an attach, which appends as many images as the as-written one). |
| Session.StepKeepsCursorValidExceptDelete | src/App.jsx:207-247 | Every action other than a deletion keeps the viewed cursor inside the history. |
| Session.StepFixedKeepsCursorValid | src/App.jsx:229-237 | With the corrected handlers, every action keeps the viewed cursor inside the history. |
| Session.StepKeepsHistoryBounded | src/App.jsx:152 | A history of at most fifty entries stays at most fifty under every action. |
| Session.OnlySuccessAddsEntries | src/App.jsx:139-155 | Apart from a successful analysis, no action adds a history entry or lengthens the history. |
| Pipeline.DraftOrderReachesProvider | server.js:18-34 | A request the client sends, however the call later ends, passes the server's validation. The provider receives the prompt first, then one block per draft image in draft order. |
| Pipeline.RoundTrip | src/App.jsx:124-161 | When the server answers 200, the newest entry is the draft with the provider's text. When it answers anything else, history, cursor, images and prompt are unchanged and the server's error is shown. |

## Left out

- Rendering, CSS, the drag-hover state and the results and history markup: presentation only.
- Local storage reads and writes, and `JSON.parse` of the saved history: these are the arguments of `Session.Init`.
- `savePrompt`, the `/api/config` fetch, `saveApiKey`, the clipboard and the status messages with their timers: storage, network and timer effects with no bearing on the session state modelled here.
- `FileReader` callbacks: the completion order is a parameter. A read that never finishes is a shorter completion list, and then the batch is never appended.
- Interleavings while a request is in flight: a settled request is one transition, using the images and prompt captured when it started.
- Gating by disabled or hidden buttons: handlers may be applied in any state, as their own code allows.
- `Date.now()` ids and ISO timestamps: plain values. Their uniqueness is not guaranteed by the code and is not claimed.
- Non-string JSON values for the key, or a non-array `images` in a request: only string keys and image-block lists are modelled.
- The provider SDK call, with its model name and token limit, as well as the Express wiring, CORS, body limit and the config endpoints: foreign library and file-system I/O.
- src/components/SortableImage.jsx and src/promptTemplates.js: presentation and a static table, not wired into the component modelled here.
- Session.DefaultPrompt: holds only the opening sentence of the built-in prompt. No transition depends on its text beyond its being fixed and non-empty.
- History.InsertAllKeepsNewest: stated only for a history already within capacity. A longer persisted history is cut to fifty at the first insertion, which History.InsertFront states.

## Findings

| source | as written | input that shows it | evidently intended | confidence | as-written member | corrected member |
|---|---|---|---|---|---|---|
| src/App.jsx:229-237 | Deleting an entry other than the viewed one leaves `currentHistoryIndex` unchanged. | History `[e0 (id 1), e1 (id 2)]`, viewing index 1, delete id 1. The history becomes `[e1]` and the viewed cursor is 1, past the end, so rendering `history[1].timestamp` (line 453) reads a field of `undefined`. When the cursor stays in range, it points at a different entry than the one shown. | The cursor follows the entry being viewed. | high (not executed) | Session.DeleteLeavesStaleCursor | Session.DeleteFromHistoryFixed |
| src/App.jsx:83-102 | Images are pushed into the batch as their reads finish, so the batch is in completion order. | Files `a.png`, `b.png` whose reads finish b then a. They are attached as `[b.png, a.png]`. | The screenshots keep the order in which they were given, since the prompt analyses them "in sequence". | medium (not executed) | Images.CompletionOrderCounterexample | Images.HandleFilesInOrder |

`Session.Step` models the component as written. `Session.StepFixed` is the
same machine with the two corrected handlers, and
`Session.StepFixedKeepsCursorValid` proves the cursor invariant for it.

=== FILE: history.dfy ===
/** The list of completed submissions, newest first, with at most fifty kept. */
module History {
  import opened Wrappers
  import Seqs

  /** An archived image: name and data URL, copied out of the draft. */
  datatype ArchivedImage = ArchivedImage(name: string, dataUrl: string)

  /** A completed submission; `analysis` is absent when the reply carried none. */
  datatype Submission = Submission(id: int, timestamp: string, images: seq<ArchivedImage>, prompt: string, analysis: Option<string>)

  const MaxHistory: nat := 50

  /** Archiving a submission: it goes in front of the existing entries, and
      the list is cut to its first fifty. */
  function InsertFront(h: seq<Submission>, e: Submission): (r: seq<Submission>)
    ensures |r| == if |h| < MaxHistory then |h| + 1 else MaxHistory
    ensures r[0] == e
    // the old entries follow in their order, the oldest dropped at capacity
    ensures forall i :: 0 <= i < |h| && i + 1 < |r| ==> r[i + 1] == h[i]
  {
    var all := [e] + h;
    all[..if |all| < MaxHistory then |all| else MaxHistory]
  }

  /** The test an entry passes when it does not carry `id`. `Images.OtherId`
      is the same test on attached images; the two element types share no
      id field Dafny could abstract over, so each module keeps its own. */
  function OtherId(id: int): Submission -> bool
  {
    (e: Submission) => e.id != id
  }

  /** Deleting from the history: every entry carrying `id` is dropped. */
  function DeleteById(h: seq<Submission>, id: int): (r: seq<Submission>)
    ensures forall e :: e in r <==> e in h && e.id != id
    ensures (forall e :: e in h ==> e.id != id) ==> r == h
    ensures |r| < |h| <==> exists e :: e in h && e.id == id
  {
    Seqs.FilterShrinks(h, OtherId(id));
    Seqs.FilterKeepsAll(h, OtherId(id));
    Seqs.Filter(h, OtherId(id))
  }

  /** Deletion keeps the order of the survivors. */
  lemma DeleteByIdKeepsOrder(a: seq<Submission>, b: seq<Submission>, id: int)
    ensures DeleteById(a + b, id) == DeleteById(a, id) + DeleteById(b, id)
  {
    Seqs.FilterAppend(a, b, OtherId(id));
  }

  /** Inserting `es` one after the other, oldest first. */
  function InsertAll(h: seq<Submission>, es: seq<Submission>): seq<Submission>
    decreases |es|
  {
    if |es| == 0 then h else InsertAll(InsertFront(h, es[0]), es[1..])
  }

  function Min(a: int, b: int): int
  {
    if a < b then a else b
  }

  /** However many submissions arrive, a history within capacity ends up
      holding the newest fifty, newest first, followed by what it held
      before, while room remains. */
  lemma {:induction false} InsertAllKeepsNewest(h: seq<Submission>, es: seq<Submission>)
    requires |h| <= MaxHistory
    ensures InsertAll(h, es) == (Seqs.Reverse(es) + h)[..Min(|es| + |h|, MaxHistory)]
    decreases |es|
  {
    if |es| > 0 {
      var h1 := InsertFront(h, es[0]);
      var x := Seqs.Reverse(es[1..]);
      assert InsertAll(h, es) == InsertAll(h1, es[1..]);
      InsertAllKeepsNewest(h1, es[1..]);
      assert h1 == ([es[0]] + h)[..Min(|h| + 1, MaxHistory)];
      assert Seqs.Reverse(es) == x + [es[0]];
      CutStep(x, es[0], h);
    }
  }

  /** One insertion under the cut: cutting before and after prepending `x`
      is cutting once. */
  lemma CutStep<T>(x: seq<T>, e: T, h: seq<T>)
    requires |h| <= MaxHistory
    ensures var m1 := Min(|h| + 1, MaxHistory);
      (x + ([e] + h)[..m1])[..Min(|x| + m1, MaxHistory)] == (x + [e] + h)[..Min(|x| + 1 + |h|, MaxHistory)]
  {
  }

  /** Fifty-one distinct submissions into an empty history leave fifty, and
      the first one is gone. */
  lemma FiftyFirstEvictsOldest(es: seq<Submission>)
    requires |es| == MaxHistory + 1 && Seqs.Distinct(es)
    ensures |InsertAll([], es)| == MaxHistory
    ensures es[0] !in InsertAll([], es)
    ensures forall k :: 1 <= k < |es| ==> es[k] in InsertAll([], es)
  {
    InsertAllKeepsNewest([], es);
    Seqs.ReverseIndex(es);
    var r := InsertAll([], es);
    assert Seqs.Reverse(es) + [] == Seqs.Reverse(es);
    assert r == Seqs.Reverse(es)[..MaxHistory];
    forall j | 0 <= j < |r|
      ensures r[j] != es[0]
    {
      assert r[j] == es[MaxHistory - j];
    }
    forall k | 1 <= k < |es|
      ensures es[k] in r
    {
      assert r[MaxHistory - k] == es[k];
    }
  }
}

=== FILE: images.dfy ===
/** The draft's image list: attaching a batch of files, removing by id, and
    turning images into request blocks. */
module Images {
  import opened Wrappers
  import opened Wire
  import Seqs
  import Text

  /** A file picked or dropped by the user; `dataUrl` is what reading it as a
      data URL yields. */
  datatype FileEntry = FileEntry(name: string, mimeType: string, dataUrl: string)

  /** An attached image; `mimeType` is the type of the underlying file. */
  datatype Image = Image(id: int, name: string, dataUrl: string, mimeType: string)

  predicate IsImageFile(f: FileEntry)
  {
    Text.StartsWith(f.mimeType, "image/")
  }

  function ImageFiles(files: seq<FileEntry>): seq<FileEntry>
  {
    Seqs.Filter(files, IsImageFile)
  }

  /** `completed` lists the positions of the files whose read finished, in
      the order the reads finished: each is an image file, none twice. */
  ghost predicate ValidCompletion(files: seq<FileEntry>, completed: seq<nat>)
  {
    && (forall k :: 0 <= k < |completed| ==> completed[k] < |files| && IsImageFile(files[completed[k]]))
    && Seqs.Distinct(completed)
  }

  /** The image built when the read of file `i` finishes at time `clock`. */
  function Read(files: seq<FileEntry>, i: nat, clock: int): Image
    requires i < |files|
  {
    Image(clock + i, files[i].name, files[i].dataUrl, files[i].mimeType)
  }

  /** The file an image was read from, without its id. */
  function Unread(img: Image): FileEntry
  {
    FileEntry(img.name, img.mimeType, img.dataUrl)
  }

  /** At most one read per image file can finish; when as many have finished
      as there are image files, every image file has been read. */
  lemma CompletionBound(files: seq<FileEntry>, completed: seq<nat>)
    requires ValidCompletion(files, completed)
    ensures |completed| <= |ImageFiles(files)|
    ensures |completed| == |ImageFiles(files)| ==>
      forall i :: 0 <= i < |files| && IsImageFile(files[i]) ==> i in completed
  {
    var idx := Seqs.KeptIndices(files, IsImageFile);
    Seqs.KeptIndicesSelect(files, IsImageFile);
    Seqs.KeptIndicesIncreasing(files, IsImageFile);
    Seqs.KeptIndicesComplete(files, IsImageFile);
    var done := Seqs.Elements(completed);
    var all := Seqs.Elements(idx);
    forall x | x in done
      ensures x in all
    {
      var k :| 0 <= k < |completed| && completed[k] == x;
      assert x < |files| && IsImageFile(files[x]);
    }
    Seqs.DistinctCardinality(completed);
    Seqs.DistinctCardinality(idx);
    Seqs.SubsetCardinality(done, all);
    assert |done| == |completed|;
    assert |all| == |idx| == |ImageFiles(files)|;
    if |completed| == |ImageFiles(files)| {
      assert done == all;
      forall i | 0 <= i < |files| && IsImageFile(files[i])
        ensures i in completed
      {
        assert i in idx;
        assert i in all;
        assert i in done;
      }
    }
  }

  /** `handleFiles` as written: every finished read pushes its image onto a
      batch, and once the batch is as long as the file list or as the list of
      image files, the whole batch is appended after the existing images.
      The batch is in read-completion order. */
  function HandleFiles(images: seq<Image>, files: seq<FileEntry>, completed: seq<nat>, clocks: seq<int>): (r: seq<Image>)
    requires ValidCompletion(files, completed) && |clocks| == |completed|
    ensures |images| <= |r| && r[..|images|] == images
    ensures |r| == if |completed| == |ImageFiles(files)| then |images| + |ImageFiles(files)| else |images|
    ensures forall k :: |images| <= k < |r| ==>
      r[k] == Read(files, completed[k - |images|], clocks[k - |images|]) && IsImageFile(Unread(r[k]))
  {
    CompletionBound(files, completed);
    var batch := seq(|completed|, k requires 0 <= k < |completed| => Read(files, completed[k], clocks[k]));
    if |batch| == |files| || |batch| == |ImageFiles(files)| then images + batch else images
  }

  /** A completed batch holds every image file exactly once. */
  lemma EachImageFileAppendedOnce(images: seq<Image>, files: seq<FileEntry>, completed: seq<nat>, clocks: seq<int>)
    requires ValidCompletion(files, completed) && |clocks| == |completed|
    requires |completed| == |ImageFiles(files)|
    ensures var r := HandleFiles(images, files, completed, clocks);
      forall i :: 0 <= i < |files| && IsImageFile(files[i]) ==>
        exists k :: 0 <= k < |completed| && completed[k] == i && Unread(r[|images| + k]) == files[i]
  {
    CompletionBound(files, completed);
    var r := HandleFiles(images, files, completed, clocks);
    forall i | 0 <= i < |files| && IsImageFile(files[i])
      ensures exists k :: 0 <= k < |completed| && completed[k] == i && Unread(r[|images| + k]) == files[i]
    {
      var k :| 0 <= k < |completed| && completed[k] == i;
      assert r[|images| + k] == Read(files, i, clocks[k]);
    }
  }

  /** Two images whose reads finish in reverse order are attached in reverse order. */
  lemma CompletionOrderCounterexample()
    ensures var a := FileEntry("a.png", "image/png", "data:image/png;base64,QQ==");
      var b := FileEntry("b.png", "image/png", "data:image/png;base64,Qg==");
      && ValidCompletion([a, b], [1, 0])
      && |HandleFiles([], [a, b], [1, 0], [7, 7])| == 2
      && HandleFiles([], [a, b], [1, 0], [7, 7])[0].name == "b.png"
      && HandleFiles([], [a, b], [1, 0], [7, 7])[1].name == "a.png"
  {
  }

  /** The time at which the read of file `i` finished (0 when it did not). */
  function ClockOf(completed: seq<nat>, clocks: seq<int>, i: nat): int
    requires |clocks| == |completed|
  {
    if |completed| == 0 then 0
    else if completed[0] == i then clocks[0]
    else ClockOf(completed[1..], clocks[1..], i)
  }

  /** `handleFiles` corrected: each read fills the slot of its file, and the
      filled slots are appended in the order the files were given. */
  function HandleFilesInOrder(images: seq<Image>, files: seq<FileEntry>, completed: seq<nat>, clocks: seq<int>): (r: seq<Image>)
    requires ValidCompletion(files, completed) && |clocks| == |completed|
    ensures |images| <= |r| && r[..|images|] == images
    ensures |r| == if |completed| == |ImageFiles(files)| then |images| + |ImageFiles(files)| else |images|
    ensures forall k :: |images| <= k < |r| ==> Unread(r[k]) == ImageFiles(files)[k - |images|]
  {
    CompletionBound(files, completed);
    if |completed| == |ImageFiles(files)| then
      var idx := Seqs.KeptIndices(files, IsImageFile);
      Seqs.FilterKeepsOrder(files, IsImageFile);
      images + seq(|idx|, k requires 0 <= k < |idx| => Read(files, idx[k], ClockOf(completed, clocks, idx[k])))
    else images
  }

  /** The test an image passes when it does not carry `id`; the twin of
      `History.OtherId` for history entries. */
  function OtherId(id: int): Image -> bool
  {
    (img: Image) => img.id != id
  }

  /** Removing an image: every image carrying `id` is dropped. */
  function RemoveImage(images: seq<Image>, id: int): (r: seq<Image>)
    ensures forall img :: img in r <==> img in images && img.id != id
    ensures |r| < |images| <==> exists img :: img in images && img.id == id
    ensures (forall img :: img in images ==> img.id != id) ==> r == images
  {
    Seqs.FilterShrinks(images, OtherId(id));
    Seqs.FilterKeepsAll(images, OtherId(id));
    Seqs.Filter(images, OtherId(id))
  }

  /** Removal keeps relative order: the survivors of a prefix still precede
      the survivors of what follows it, and they are the original images read
      at increasing positions. */
  lemma RemoveImageKeepsOrder(a: seq<Image>, b: seq<Image>, id: int)
    ensures RemoveImage(a + b, id) == RemoveImage(a, id) + RemoveImage(b, id)
    ensures var idx := Seqs.KeptIndices(a, OtherId(id));
      && |idx| == |RemoveImage(a, id)|
      && Seqs.StrictlyIncreasing(idx)
      && forall k :: 0 <= k < |idx| ==> idx[k] < |a| && RemoveImage(a, id)[k] == a[idx[k]]
  {
    Seqs.FilterAppend(a, b, OtherId(id));
    Seqs.FilterKeepsOrder(a, OtherId(id));
  }

  /** `images.map(...)`: one request block per image, carrying the file type
      and the part of the data URL after its first comma. */
  function ToBlock(img: Image): ImageBlock
  {
    ImageBlock(img.mimeType, Text.SplitSecond(img.dataUrl))
  }

  function ToBlocks(images: seq<Image>): seq<ImageBlock>
  {
    seq(|images|, k requires 0 <= k < |images| => ToBlock(images[k]))
  }

  /** An image whose data URL is `header,payload` is sent with exactly its base64 payload. */
  lemma BlockCarriesPayload(img: Image, header: string, payload: string)
    requires img.dataUrl == header + "," + payload
    requires ',' !in header && ',' !in payload
    ensures ToBlock(img) == ImageBlock(img.mimeType, Some(payload))
  {
  }
}

=== FILE: pipeline.dfy ===
/** The client's request travelling through the server handler and back. */
module Pipeline {
  import opened Wrappers
  import opened Wire
  import Images
  import History
  import Server
  import Session

  /** What the client reads back: the handler's JSON body, whatever the status. */
  function Deliver(response: Server.Response): Session.FetchOutcome
  {
    Session.Responded(response.body)
  }

  /** A request the client lets through is never refused by the server, and
      the provider receives the prompt first and then the draft's images in
      the draft's order. */
  lemma DraftOrderReachesProvider(s: Session.State, outcome: Session.FetchOutcome, upstream: Server.Upstream, clock: int, timestamp: string)
    requires Session.CanAnalyze(s)
    ensures var req := Session.AnalyzeScreenshots(s, outcome, clock, timestamp).request;
      && req.Some?
      && var resp := Server.Analyze(req.value, upstream);
      && resp.status != 400
      && resp.sent.Some?
      && |resp.sent.value| == |s.images| + 1
      && resp.sent.value[0] == TextBlock(Some(s.prompt))
      && forall k :: 0 <= k < |s.images| ==> resp.sent.value[k + 1] == ImageContent(Images.ToBlock(s.images[k]))
  {
  }

  /** One full round trip: a provider answer becomes the newest history entry
      carrying the draft; any server failure leaves history, draft and
      cursor as they were and shows the server's error. */
  lemma RoundTrip(s: Session.State, upstream: Server.Upstream, clock: int, timestamp: string)
    requires Session.CanAnalyze(s)
    ensures var resp := Server.Analyze(Session.RequestOf(s), upstream);
      var after := Session.AnalyzeScreenshots(s, Deliver(resp), clock, timestamp).after;
      && (resp.status == 200 ==>
            && after.history[0] == History.Submission(clock, timestamp, Session.Archive(s.images), s.prompt, resp.body.analysis)
            && after.currentHistoryIndex == 0 && !after.viewingHistory)
      && (resp.status != 200 ==>
            && after.history == s.history
            && after.currentHistoryIndex == s.currentHistoryIndex
            && after.viewingHistory == s.viewingHistory
            && after.results == Some(resp.body)
            && IsError(resp.body))
      && after.images == s.images && after.prompt == s.prompt && !after.analyzing
  {
  }
}

=== FILE: seqs.dfy ===
/** Sequence helpers shared by the image list and the history list. */
module Seqs {

  /** The elements of `s` that satisfy `keep`, in their original order
      (JavaScript's `Array.prototype.filter`). */
  function Filter<T(!new)>(s: seq<T>, keep: T -> bool): (r: seq<T>)
    ensures |r| <= |s|
    ensures forall x :: x in r <==> x in s && keep(x)
  {
    if |s| == 0 then []
    else (if keep(s[0]) then [s[0]] else []) + Filter(s[1..], keep)
  }

  /** Filtering distributes over concatenation: what survives of `a` still
      comes before what survives of `b`. */
  lemma {:induction false} FilterAppend<T(!new)>(a: seq<T>, b: seq<T>, keep: T -> bool)
    ensures Filter(a + b, keep) == Filter(a, keep) + Filter(b, keep)
  {
    if |a| == 0 {
      assert a + b == b;
    } else {
      assert (a + b)[1..] == a[1..] + b;
      FilterAppend(a[1..], b, keep);
    }
  }

  /** Filtering with a predicate every element meets changes nothing. */
  lemma {:induction false} FilterKeepsAll<T(!new)>(s: seq<T>, keep: T -> bool)
    ensures (forall x :: x in s ==> keep(x)) ==> Filter(s, keep) == s
  {
    if |s| > 0 {
      FilterKeepsAll(s[1..], keep);
    }
  }

  /** The filtered sequence is strictly shorter exactly when some element fails `keep`. */
  lemma {:induction false} FilterShrinks<T(!new)>(s: seq<T>, keep: T -> bool)
    ensures |Filter(s, keep)| < |s| <==> exists x :: x in s && !keep(x)
  {
    if |s| > 0 {
      FilterShrinks(s[1..], keep);
      assert forall x :: x in s <==> x == s[0] || x in s[1..];
    }
  }

  function Shift(t: seq<nat>): seq<nat>
  {
    seq(|t|, k requires 0 <= k < |t| => t[k] + 1)
  }

  /** The positions of the elements of `s` that satisfy `keep`, ascending. */
  function KeptIndices<T>(s: seq<T>, keep: T -> bool): seq<nat>
  {
    if |s| == 0 then []
    else (if keep(s[0]) then [0] else []) + Shift(KeptIndices(s[1..], keep))
  }

  ghost predicate StrictlyIncreasing(t: seq<nat>)
  {
    forall j, k :: 0 <= j < k < |t| ==> t[j] < t[k]
  }

  ghost predicate Distinct<T>(s: seq<T>)
  {
    forall j, k :: 0 <= j < k < |s| ==> s[j] != s[k]
  }

  /** `Filter` keeps relative order: its result is `s` read at strictly
      increasing positions, and those positions are exactly the ones whose
      element satisfies `keep`. */
  lemma FilterKeepsOrder<T(!new)>(s: seq<T>, keep: T -> bool)
    ensures var idx := KeptIndices(s, keep);
      && |idx| == |Filter(s, keep)|
      && StrictlyIncreasing(idx)
      && (forall k :: 0 <= k < |idx| ==> idx[k] < |s| && Filter(s, keep)[k] == s[idx[k]])
      && (forall i :: 0 <= i < |s| ==> (i in idx <==> keep(s[i])))
  {
    KeptIndicesSelect(s, keep);
    KeptIndicesIncreasing(s, keep);
    KeptIndicesComplete(s, keep);
  }

  lemma {:induction false} KeptIndicesSelect<T(!new)>(s: seq<T>, keep: T -> bool)
    ensures var idx := KeptIndices(s, keep);
      && |idx| == |Filter(s, keep)|
      && (forall k :: 0 <= k < |idx| ==> idx[k] < |s| && Filter(s, keep)[k] == s[idx[k]])
  {
    if |s| > 0 {
      KeptIndicesSelect(s[1..], keep);
      var tail := KeptIndices(s[1..], keep);
      var head: seq<nat> := if keep(s[0]) then [0] else [];
      var idx := head + Shift(tail);
      var f := Filter(s, keep);
      assert f == (if keep(s[0]) then [s[0]] else []) + Filter(s[1..], keep);
      forall k | 0 <= k < |idx|
        ensures idx[k] < |s| && f[k] == s[idx[k]]
      {
        if k >= |head| {
          assert idx[k] == tail[k - |head|] + 1;
          assert f[k] == Filter(s[1..], keep)[k - |head|];
        }
      }
    }
  }

  lemma {:induction false} KeptIndicesIncreasing<T>(s: seq<T>, keep: T -> bool)
    ensures StrictlyIncreasing(KeptIndices(s, keep))
    ensures Distinct(KeptIndices(s, keep))
    ensures forall k :: 0 <= k < |KeptIndices(s, keep)| ==> KeptIndices(s, keep)[k] < |s|
  {
    if |s| > 0 {
      KeptIndicesIncreasing(s[1..], keep);
      var tail := KeptIndices(s[1..], keep);
      var head: seq<nat> := if keep(s[0]) then [0] else [];
      var idx := head + Shift(tail);
      forall j, k | 0 <= j < k < |idx|
        ensures idx[j] < idx[k]
      {
        assert idx[k] == tail[k - |head|] + 1;
        if j >= |head| {
          assert idx[j] == tail[j - |head|] + 1;
        }
      }
      forall k | 0 <= k < |idx|
        ensures idx[k] < |s|
      {
        if k >= |head| {
          assert idx[k] == tail[k - |head|] + 1;
        }
      }
    }
  }

  lemma {:induction false} KeptIndicesComplete<T>(s: seq<T>, keep: T -> bool)
    ensures forall i :: 0 <= i < |s| ==> (i in KeptIndices(s, keep) <==> keep(s[i]))
  {
    if |s| > 0 {
      KeptIndicesComplete(s[1..], keep);
      var tail := KeptIndices(s[1..], keep);
      var head: seq<nat> := if keep(s[0]) then [0] else [];
      var idx := head + Shift(tail);
      forall i | 0 <= i < |s|
        ensures i in idx <==> keep(s[i])
      {
        if i > 0 {
          assert s[1..][i - 1] == s[i];
          if i - 1 in tail {
            var k :| 0 <= k < |tail| && tail[k] == i - 1;
            assert idx[|head| + k] == i;
          }
          if i in idx {
            var k :| 0 <= k < |idx| && idx[k] == i;
            assert k >= |head|;
            assert tail[k - |head|] == i - 1;
          }
        } else if 0 in idx {
          var k :| 0 <= k < |idx| && idx[k] == 0;
          assert k < |head|;
        }
      }
    }
  }

  function Elements<T>(s: seq<T>): set<T>
  {
    set x | x in s
  }

  /** A sequence without repetitions has as many distinct elements as it has positions. */
  lemma {:induction false} DistinctCardinality<T>(s: seq<T>)
    requires Distinct(s)
    ensures |Elements(s)| == |s|
  {
    if |s| > 0 {
      DistinctCardinality(s[1..]);
      assert Elements(s) == {s[0]} + Elements(s[1..]);
      assert s[0] !in s[1..];
    }
  }

  lemma SubsetCardinality<T>(a: set<T>, b: set<T>)
    requires a <= b
    ensures |a| <= |b|
    ensures |a| == |b| ==> a == b
  {
    assert b == a + (b - a);
  }

  function Reverse<T>(s: seq<T>): (r: seq<T>)
    ensures |r| == |s|
  {
    if |s| == 0 then [] else Reverse(s[1..]) + [s[0]]
  }

  /** Position `k` of the reversal holds the element `k` places from the end. */
  lemma {:induction false} ReverseIndex<T>(s: seq<T>)
    ensures forall k :: 0 <= k < |s| ==> Reverse(s)[k] == s[|s| - 1 - k]
  {
    if |s| > 0 {
      ReverseIndex(s[1..]);
    }
  }
}

=== FILE: server.dfy ===
/** The `POST /api/analyze` handler: validates the request, composes the
    content array for the inference provider and maps its outcome to a reply. */
module Server {
  import opened Wrappers
  import opened Wire

  /** One block of the provider's reply content. */
  datatype ResponseBlock = TextPart(text: string) | OtherPart

  /** What the provider call did: answered with content blocks, or threw an
      error carrying `message` ("" when it carries none). */
  datatype Upstream = Answered(content: seq<ResponseBlock>) | Raised(message: string)

  /** The HTTP reply, plus the content array the handler sent upstream (None
      when it made no provider call). */
  datatype Response = Response(status: int, body: Reply, sent: Option<seq<ContentBlock>>)

  const MissingParameters: string := "Missing required parameters"
  const AnalyzeFailed: string := "Failed to analyze screenshots"
  /** The message of the TypeError raised by reading `content[0].text` of an empty reply. */
  const NoFirstBlock: string := "Cannot read properties of undefined (reading 'text')"

  /** The request is served only with a non-empty API key and a non-empty image list. */
  predicate Valid(body: RequestBody)
  {
    Truthy(body.apiKey) && body.images.Some? && |body.images.value| > 0
  }

  /** One text block carrying the prompt verbatim, then the images as given. */
  function Content(prompt: Option<string>, images: seq<ImageBlock>): seq<ContentBlock>
  {
    [TextBlock(prompt)] + seq(|images|, k requires 0 <= k < |images| => ImageContent(images[k]))
  }

  function Failure(message: string): Reply
  {
    Reply(None, Some(if message == "" then AnalyzeFailed else message))
  }

  function Analyze(body: RequestBody, upstream: Upstream): (r: Response)
    // invalid parameters: 400, no provider call
    ensures r.status == 400 <==> !Valid(body)
    ensures r.status == 400 ==> r.sent.None? && r.body == Reply(None, Some(MissingParameters))
    // otherwise the content is the prompt followed by the images, in order
    ensures r.status != 400 ==>
      && r.sent.Some?
      && |r.sent.value| == |body.images.value| + 1
      && r.sent.value[0] == TextBlock(body.prompt)
      && (forall k :: 0 <= k < |body.images.value| ==> r.sent.value[k + 1] == ImageContent(body.images.value[k]))
    ensures r.status == 200 || r.status == 400 || r.status == 500
    // success carries the text of the first reply block and no error
    ensures r.status == 200 <==> Valid(body) && upstream.Answered? && |upstream.content| > 0
    ensures r.status == 200 ==>
      r.body == Reply(if upstream.content[0].TextPart? then Some(upstream.content[0].text) else None, None)
    // every failure carries a non-empty message
    ensures r.status != 200 ==> r.body.analysis.None? && IsError(r.body)
    ensures Valid(body) && upstream == Answered([]) ==> r.status == 500 && r.body.error == Some(NoFirstBlock)
    ensures r.status == 500 && upstream.Raised? ==>
      r.body.error == Some(if upstream.message == "" then AnalyzeFailed else upstream.message)
  {
    if !Valid(body) then
      Response(400, Reply(None, Some(MissingParameters)), None)
    else
      var content := Content(body.prompt, body.images.value);
      match upstream
      case Raised(message) => Response(500, Failure(message), Some(content))
      case Answered(blocks) =>
        if |blocks| == 0 then Response(500, Failure(NoFirstBlock), Some(content))
        else
          var first := blocks[0];
          Response(200, Reply(if first.TextPart? then Some(first.text) else None, None), Some(content))
  }
}

=== FILE: session.dfy ===
/** The client's session state and its handlers, each a pure transition on
    one immutable record. */
module Session {
  import opened Wrappers
  import opened Wire
  import Seqs
  import Images
  import History

  /** The built-in prompt. Only its being one fixed, non-empty text matters
      to the transitions, so the constant holds its opening sentence. */
  const DefaultPrompt: string := "Analyze these UI screenshots in sequence."

  /** The result shown when the request itself fails. */
  const FetchFailed: string := "Failed to analyze screenshots. Please check your API key and try again."

  /** The file type given to images restored from history. */
  const PlaceholderType: string := "image/png"

  /** The component's state. `currentHistoryIndex` is -1 when no entry is current. */
  datatype State = State(
    images: seq<Images.Image>,
    prompt: string,
    results: Option<Reply>,
    history: seq<History.Submission>,
    currentHistoryIndex: int,
    viewingHistory: bool,
    apiKey: string,
    analyzing: bool)

  /** The state on mount, given what local storage held. */
  function Init(savedPrompt: Option<string>, savedHistory: seq<History.Submission>): (s: State)
    ensures s.prompt != ""
    ensures Truthy(savedPrompt) ==> s.prompt == savedPrompt.value
    ensures !Truthy(savedPrompt) ==> s.prompt == DefaultPrompt
    ensures s.history == savedHistory && s.images == [] && s.results.None?
    ensures s.currentHistoryIndex == -1 && !s.viewingHistory && !s.analyzing && s.apiKey == ""
  {
    State([], if Truthy(savedPrompt) then savedPrompt.value else DefaultPrompt, None, savedHistory, -1, false, "", false)
  }

  // ---------------------------------------------------------------- analysis

  /** How the `fetch` of `/api/analyze` ended: a parsed JSON reply, or a throw. */
  datatype FetchOutcome = Responded(data: Reply) | FetchThrew

  /** The guard of `analyzeScreenshots`: a non-empty key and at least one
      image. The prompt is not checked. */
  predicate CanAnalyze(s: State)
  {
    s.apiKey != "" && |s.images| > 0
  }

  /** The request body the client posts. */
  function RequestOf(s: State): RequestBody
  {
    RequestBody(Some(s.apiKey), Some(Images.ToBlocks(s.images)), Some(s.prompt))
  }

  /** The `(name, dataUrl)` copy of the draft images stored in a submission. */
  function Archive(images: seq<Images.Image>): seq<History.ArchivedImage>
  {
    seq(|images|, k requires 0 <= k < |images| => History.ArchivedImage(images[k].name, images[k].dataUrl))
  }

  predicate Succeeded(outcome: FetchOutcome)
  {
    outcome.Responded? && !IsError(outcome.data)
  }

  /** The state while the request is in flight, the request sent (if any),
      and the state once it has settled. */
  datatype Analysis = Analysis(inFlight: State, request: Option<RequestBody>, after: State)

  /** `analyzeScreenshots`, with the reply (or the throw) as a parameter and
      `clock`/`timestamp` standing for `Date.now()` and the ISO time. */
  function AnalyzeScreenshots(s: State, outcome: FetchOutcome, clock: int, timestamp: string): (r: Analysis)
    // the guard: no request, no change
    ensures r.request.Some? <==> CanAnalyze(s)
    ensures !CanAnalyze(s) ==> r.inFlight == s && r.after == s
    // the request: key and prompt verbatim, one block per image in order
    ensures r.request.Some? ==>
      && r.request.value.apiKey == Some(s.apiKey)
      && r.request.value.prompt == Some(s.prompt)
      && r.request.value.images.Some?
      && |r.request.value.images.value| == |s.images|
      && forall k :: 0 <= k < |s.images| ==> r.request.value.images.value[k] == Images.ToBlock(s.images[k])
    ensures r.request.Some? ==> r.inFlight == s.(analyzing := true, results := None) && !r.after.analyzing
    // the draft and the key are never touched
    ensures r.after.images == s.images && r.after.prompt == s.prompt && r.after.apiKey == s.apiKey
    // success: the submission goes to the front of the history
    ensures r.request.Some? && Succeeded(outcome) ==>
      && r.after.results == Some(outcome.data)
      && r.after.history == History.InsertFront(s.history, History.Submission(clock, timestamp, Archive(s.images), s.prompt, outcome.data.analysis))
      && r.after.currentHistoryIndex == 0
      && !r.after.viewingHistory
    // failure: the history and the cursor stay, the result carries the error
    ensures r.request.Some? && !Succeeded(outcome) ==>
      && r.after.history == s.history
      && r.after.currentHistoryIndex == s.currentHistoryIndex
      && r.after.viewingHistory == s.viewingHistory
      && r.after.results.Some? && IsError(r.after.results.value)
      && r.after.results == (if outcome.FetchThrew? then Some(Reply(None, Some(FetchFailed))) else Some(outcome.data))
  {
    if !CanAnalyze(s) then Analysis(s, None, s)
    else
      var flying := s.(analyzing := true, results := None);
      var settled := match outcome
        case FetchThrew => flying.(results := Some(Reply(None, Some(FetchFailed))))
        case Responded(data) =>
          if IsError(data) then flying.(results := Some(data))
          else
            var submission := History.Submission(clock, timestamp, Archive(s.images), s.prompt, data.analysis);
            flying.(results := Some(data), history := History.InsertFront(s.history, submission),
                    currentHistoryIndex := 0, viewingHistory := false);
      Analysis(flying, Some(RequestOf(s)), settled.(analyzing := false))
  }

  /** After a successful analysis the newest entry is a faithful copy of the
      draft: the same images (name and data URL, in order), the same prompt,
      the reply's analysis; the older entries follow in order, and the
      history never exceeds fifty. */
  lemma SuccessArchivesDraft(s: State, outcome: FetchOutcome, clock: int, timestamp: string)
    requires CanAnalyze(s) && Succeeded(outcome)
    ensures var h := AnalyzeScreenshots(s, outcome, clock, timestamp).after.history;
      && |h| == (if |s.history| < History.MaxHistory then |s.history| + 1 else History.MaxHistory)
      && |h[0].images| == |s.images|
      && (forall k :: 0 <= k < |s.images| ==>
            h[0].images[k].name == s.images[k].name && h[0].images[k].dataUrl == s.images[k].dataUrl)
      && h[0].prompt == s.prompt
      && h[0].analysis == outcome.data.analysis
      && h[0].id == clock
      && h[1..] == s.history[..|h| - 1]
  {
  }

  // ----------------------------------------------------------------- history

  /** The images shown for an archived entry: fresh ids, placeholder type. */
  function Restore(archived: seq<History.ArchivedImage>, clock: int): seq<Images.Image>
  {
    seq(|archived|, k requires 0 <= k < |archived| =>
      Images.Image(clock + k, archived[k].name, archived[k].dataUrl, PlaceholderType))
  }

  /** Restoring and archiving again gives back the stored images. */
  lemma RestoreThenArchive(archived: seq<History.ArchivedImage>, clock: int)
    ensures Archive(Restore(archived, clock)) == archived
  {
  }

  /** `loadFromHistory`: out-of-range indices do nothing. */
  function LoadFromHistory(s: State, index: int, clock: int): (r: State)
    ensures !(0 <= index < |s.history|) ==> r == s
    ensures 0 <= index < |s.history| ==>
      && r.viewingHistory
      && r.currentHistoryIndex == index
      && r.prompt == s.history[index].prompt
      && r.results == Some(Reply(s.history[index].analysis, None))
      && Archive(r.images) == s.history[index].images
      && (forall img :: img in r.images ==> img.mimeType == PlaceholderType)
      && r.history == s.history && r.apiKey == s.apiKey && r.analyzing == s.analyzing
  {
    if 0 <= index < |s.history| then
      var entry := s.history[index];
      RestoreThenArchive(entry.images, clock);
      s.(images := Restore(entry.images, clock), prompt := entry.prompt,
         results := Some(Reply(entry.analysis, None)),
         currentHistoryIndex := index, viewingHistory := true)
    else s
  }

  /** `navigateHistory`: moves the cursor by `direction` when the target is a
      valid index, whether or not an entry is being viewed. */
  function NavigateHistory(s: State, direction: int, clock: int): (r: State)
    ensures var n := s.currentHistoryIndex + direction;
      && (0 <= n < |s.history| ==>
            && r.viewingHistory && r.currentHistoryIndex == n
            && r.prompt == s.history[n].prompt
            && r.results == Some(Reply(s.history[n].analysis, None))
            && Archive(r.images) == s.history[n].images
            && (forall img :: img in r.images ==> img.mimeType == PlaceholderType)
            && r.history == s.history && r.apiKey == s.apiKey && r.analyzing == s.analyzing)
      && (!(0 <= n < |s.history|) ==> r == s)
  {
    var n := s.currentHistoryIndex + direction;
    if 0 <= n < |s.history| then LoadFromHistory(s, n, clock) else s
  }

  /** Stepping forward and then back shows the entry one started from. */
  lemma NavigateForwardThenBack(s: State, t1: int, t2: int)
    requires s.viewingHistory && 0 <= s.currentHistoryIndex && s.currentHistoryIndex + 1 < |s.history|
    ensures var c := s.currentHistoryIndex;
      var back := NavigateHistory(NavigateHistory(s, 1, t1), -1, t2);
      && back.viewingHistory && back.currentHistoryIndex == c
      && back.prompt == s.history[c].prompt
      && back.results == Some(Reply(s.history[c].analysis, None))
      && Archive(back.images) == s.history[c].images
  {
  }

  /** The entry at the cursor is being viewed and carries `id`. */
  predicate ViewsEntry(s: State, id: int)
  {
    s.viewingHistory && 0 <= s.currentHistoryIndex < |s.history| && s.history[s.currentHistoryIndex].id == id
  }

  /** `deleteFromHistory` as written: deleting the viewed entry returns to
      composing; deleting any other leaves the cursor where it was. */
  function DeleteFromHistory(s: State, id: int): (r: State)
    ensures r.history == History.DeleteById(s.history, id)
    ensures ViewsEntry(s, id) ==>
      r.currentHistoryIndex == -1 && !r.viewingHistory && r.results.None? && r.images == []
    ensures !ViewsEntry(s, id) ==>
      && r.currentHistoryIndex == s.currentHistoryIndex && r.viewingHistory == s.viewingHistory
      && r.results == s.results && r.images == s.images
    ensures r.prompt == s.prompt && r.apiKey == s.apiKey && r.analyzing == s.analyzing
  {
    var h := History.DeleteById(s.history, id);
    if ViewsEntry(s, id) then
      s.(history := h, currentHistoryIndex := -1, viewingHistory := false, results := None, images := [])
    else
      s.(history := h)
  }

  /** While an entry is viewed the cursor points into the history. */
  ghost predicate CursorValid(s: State)
  {
    s.viewingHistory ==> 0 <= s.currentHistoryIndex < |s.history|
  }

  /** The state on mount views nothing, so its cursor is valid. */
  lemma InitCursorValid(savedPrompt: Option<string>, savedHistory: seq<History.Submission>)
    ensures CursorValid(Init(savedPrompt, savedHistory))
  {
  }

  /** Viewing the second of two entries and deleting the first leaves the
      cursor past the end of the history. */
  lemma DeleteLeavesStaleCursor()
    ensures var e0 := History.Submission(1, "t0", [], "p", None);
      var e1 := History.Submission(2, "t1", [], "p", None);
      var s := State([], "p", None, [e0, e1], 1, true, "k", false);
      && CursorValid(s)
      && DeleteFromHistory(s, 1).history == [e1]
      && DeleteFromHistory(s, 1).viewingHistory
      && DeleteFromHistory(s, 1).currentHistoryIndex == 1
      && !CursorValid(DeleteFromHistory(s, 1))
  {
  }

  /** Survivors before position `c` decide where entry `c` lands after a deletion. */
  lemma DeletedPosition(h: seq<History.Submission>, id: int, c: nat)
    requires c < |h| && h[c].id != id
    ensures var n := |History.DeleteById(h[..c], id)|;
      n < |History.DeleteById(h, id)| && History.DeleteById(h, id)[n] == h[c]
  {
    assert h == h[..c] + h[c..];
    History.DeleteByIdKeepsOrder(h[..c], h[c..], id);
    var rest := h[c..];
    assert rest[0] == h[c];
    assert History.DeleteById(rest, id) == Seqs.Filter(rest, History.OtherId(id));
    assert Seqs.Filter(rest, History.OtherId(id)) == [h[c]] + Seqs.Filter(rest[1..], History.OtherId(id));
  }

  /** `deleteFromHistory` corrected: deleting another entry moves the cursor
      so that it still points at the entry being viewed. */
  function DeleteFromHistoryFixed(s: State, id: int): (r: State)
    ensures r.history == History.DeleteById(s.history, id)
    ensures ViewsEntry(s, id) ==>
      r.currentHistoryIndex == -1 && !r.viewingHistory && r.results.None? && r.images == []
    ensures CursorValid(s) && s.viewingHistory && !ViewsEntry(s, id) ==>
      && r.viewingHistory
      && 0 <= r.currentHistoryIndex < |r.history|
      && r.history[r.currentHistoryIndex] == s.history[s.currentHistoryIndex]
      && r.results == s.results && r.images == s.images
    ensures !s.viewingHistory ==> r == s.(history := r.history)
    ensures CursorValid(s) ==> CursorValid(r)
    ensures r.prompt == s.prompt && r.apiKey == s.apiKey && r.analyzing == s.analyzing
  {
    var h := History.DeleteById(s.history, id);
    if ViewsEntry(s, id) then
      s.(history := h, currentHistoryIndex := -1, viewingHistory := false, results := None, images := [])
    else if s.viewingHistory && 0 <= s.currentHistoryIndex < |s.history| then
      var c := s.currentHistoryIndex;
      DeletedPosition(s.history, id, c);
      s.(history := h, currentHistoryIndex := |History.DeleteById(s.history[..c], id)|)
    else
      s.(history := h)
  }

  /** The correction touches the cursor and nothing else. */
  lemma FixOnlyMovesCursor(s: State, id: int)
    ensures DeleteFromHistoryFixed(s, id).(currentHistoryIndex := 0) == DeleteFromHistory(s, id).(currentHistoryIndex := 0)
  {
  }

  /** `clearHistory`: only a confirmed clear empties the history and leaves
      viewing; the draft and the result stay. */
  function ClearHistory(s: State, confirmed: bool): (r: State)
    ensures !confirmed ==> r == s
    ensures confirmed ==>
      && r.history == [] && r.currentHistoryIndex == -1 && !r.viewingHistory
      && r.images == s.images && r.results == s.results && r.prompt == s.prompt && r.apiKey == s.apiKey
      && r.analyzing == s.analyzing
  {
    if confirmed then s.(history := [], currentHistoryIndex := -1, viewingHistory := false) else s
  }

  /** The "New Analysis" button: back to composing with no images and no
      result; the prompt and the history stay. */
  function NewAnalysis(s: State): (r: State)
    ensures !r.viewingHistory && r.currentHistoryIndex == -1 && r.images == [] && r.results.None?
    ensures r.history == s.history && r.prompt == s.prompt && r.apiKey == s.apiKey && r.analyzing == s.analyzing
  {
    s.(viewingHistory := false, currentHistoryIndex := -1, images := [], results := None)
  }

  /** `resetPrompt`: the prompt goes back to the built-in text, nothing else changes. */
  function ResetPrompt(s: State): (r: State)
    ensures r.prompt == DefaultPrompt && r.prompt != ""
    ensures r.(prompt := s.prompt) == s
  {
    s.(prompt := DefaultPrompt)
  }

  // ------------------------------------------------------------ the machine

  /** Every user action or settled request the component reacts to. */
  datatype Action =
    | AttachFiles(files: seq<Images.FileEntry>, completed: seq<nat>, clocks: seq<int>)
    | RemoveImage(id: int)
    | Analyze(outcome: FetchOutcome, clock: int, timestamp: string)
    | LoadEntry(index: int, clock: int)
    | Navigate(direction: int, clock: int)
    | DeleteEntry(id: int)
    | ClearAll(confirmed: bool)
    | StartNew
    | ResetToDefault
    | EditPrompt(text: string)
    | EditApiKey(key: string)

  ghost predicate Admissible(a: Action)
  {
    a.AttachFiles? ==> Images.ValidCompletion(a.files, a.completed) && |a.clocks| == |a.completed|
  }

  /** The component as written. Typing into the prompt or key fields changes
      that field alone; the key is changed by nothing else. */
  function Step(s: State, a: Action): (r: State)
    requires Admissible(a)
    ensures a.EditPrompt? ==> r.prompt == a.text && r.(prompt := s.prompt) == s
    ensures a.EditApiKey? ==> r.apiKey == a.key && r.(apiKey := s.apiKey) == s
    ensures !a.EditApiKey? ==> r.apiKey == s.apiKey
    ensures !a.EditPrompt? && !a.ResetToDefault? && !a.LoadEntry? && !a.Navigate? ==> r.prompt == s.prompt
  {
    match a
    case AttachFiles(files, completed, clocks) => s.(images := Images.HandleFiles(s.images, files, completed, clocks))
    case RemoveImage(id) => s.(images := Images.RemoveImage(s.images, id))
    case Analyze(outcome, clock, timestamp) => AnalyzeScreenshots(s, outcome, clock, timestamp).after
    case LoadEntry(index, clock) => LoadFromHistory(s, index, clock)
    case Navigate(direction, clock) => NavigateHistory(s, direction, clock)
    case DeleteEntry(id) => DeleteFromHistory(s, id)
    case ClearAll(confirmed) => ClearHistory(s, confirmed)
    case StartNew => NewAnalysis(s)
    case ResetToDefault => ResetPrompt(s)
    case EditPrompt(text) => s.(prompt := text)
    case EditApiKey(key) => s.(apiKey := key)
  }

  /** The component with the two corrected handlers. It differs from the
      component as written only in the cursor and in the order of attached
      images, and attaches as many images. */
  function StepFixed(s: State, a: Action): (r: State)
    requires Admissible(a)
    ensures r.(currentHistoryIndex := 0, images := []) == Step(s, a).(currentHistoryIndex := 0, images := [])
    ensures !a.DeleteEntry? ==> r.currentHistoryIndex == Step(s, a).currentHistoryIndex
    ensures !a.AttachFiles? ==> r.images == Step(s, a).images
    ensures |r.images| == |Step(s, a).images|
  {
    match a
    case AttachFiles(files, completed, clocks) => s.(images := Images.HandleFilesInOrder(s.images, files, completed, clocks))
    case DeleteEntry(id) => DeleteFromHistoryFixed(s, id)
    case _ => Step(s, a)
  }

  /** Every action but a deletion keeps the cursor valid. */
  lemma StepKeepsCursorValidExceptDelete(s: State, a: Action)
    requires Admissible(a) && CursorValid(s) && !a.DeleteEntry?
    ensures CursorValid(Step(s, a))
  {
  }

  /** With the corrected handlers every action keeps the cursor valid. */
  lemma StepFixedKeepsCursorValid(s: State, a: Action)
    requires Admissible(a) && CursorValid(s)
    ensures CursorValid(StepFixed(s, a))
  {
  }

  /** A history within capacity stays within capacity. */
  lemma StepKeepsHistoryBounded(s: State, a: Action)
    requires Admissible(a) && |s.history| <= History.MaxHistory
    ensures |Step(s, a).history| <= History.MaxHistory
    ensures |StepFixed(s, a).history| <= History.MaxHistory
  {
  }

  /** Entries are created only by a successful analysis; every other action
      keeps or drops existing entries. */
  lemma OnlySuccessAddsEntries(s: State, a: Action)
    requires Admissible(a)
    requires !(a.Analyze? && CanAnalyze(s) && Succeeded(a.outcome))
    ensures forall e :: e in Step(s, a).history ==> e in s.history
    ensures |Step(s, a).history| <= |s.history|
  {
  }
}

=== FILE: text.dfy ===
/** The two string operations the client applies: `startsWith` on a MIME
    type and `split(',')[1]` on a data URL. */
module Text {
  import opened Wrappers

  predicate StartsWith(s: string, prefix: string)
  {
    |prefix| <= |s| && s[..|prefix|] == prefix
  }

  /** The first position of `c` in `s`, if any (`indexOf`, with -1 as None). */
  function IndexOf(s: string, c: char): (r: Option<nat>)
    ensures r.Some? ==> r.value < |s| && s[r.value] == c && c !in s[..r.value]
    ensures r.None? <==> c !in s
  {
    if |s| == 0 then None
    else if s[0] == c then Some(0)
    else match IndexOf(s[1..], c)
      case None => None
      case Some(i) =>
        assert s[..i + 1] == [s[0]] + s[1..][..i];
        Some(i + 1)
  }

  /** `s.split(',')[1]`: the text between the first and the second comma (or
      the end), absent (`undefined`) when `s` holds no comma. */
  function SplitSecond(s: string): (r: Option<string>)
    ensures r.Some? <==> ',' in s
    ensures r.Some? ==> ',' !in r.value
  {
    match IndexOf(s, ',')
    case None => None
    case Some(i) =>
      var rest := s[i + 1..];
      match IndexOf(rest, ',')
      case None => Some(rest)
      case Some(j) => Some(rest[..j])
  }

  /** A data URL `header,payload` yields its payload back. */
  lemma SplitSecondOfDataUrl(header: string, payload: string)
    requires ',' !in header && ',' !in payload
    ensures SplitSecond(header + "," + payload) == Some(payload)
  {
  }

  /** Anything after a second comma is dropped. */
  lemma SplitSecondDropsLaterFields(header: string, payload: string, tail: string)
    requires ',' !in header && ',' !in payload
    ensures SplitSecond(header + "," + payload + "," + tail) == Some(payload)
  {
    var s := header + "," + payload + "," + tail;
    assert s[..|header|] == header;
    assert s[|header|] == ',';
    assert IndexOf(s, ',') == Some(|header|);
    var rest := s[|header| + 1..];
    assert rest == payload + "," + tail;
    assert rest[..|payload|] == payload;
    assert rest[|payload|] == ',';
    assert IndexOf(rest, ',') == Some(|payload|);
  }
}

=== FILE: wire.dfy ===
/** The JSON shapes exchanged between the browser client and the server. */
module Wire {
  import opened Wrappers

  /** `{type: "image", source: {type: "base64", media_type, data}}`; `data`
      is absent when the image's data URL held no comma. */
  datatype ImageBlock = ImageBlock(mediaType: string, data: Option<string>)

  /** One element of the content array sent to the inference provider. */
  datatype ContentBlock =
    | TextBlock(text: Option<string>)
    | ImageContent(image: ImageBlock)

  /** The body of `POST /api/analyze`; each field may be missing. */
  datatype RequestBody = RequestBody(apiKey: Option<string>, images: Option<seq<ImageBlock>>, prompt: Option<string>)

  /** The JSON reply of `/api/analyze`, also the client's `results` value:
      `{analysis}` on success, `{error}` otherwise. */
  datatype Reply = Reply(analysis: Option<string>, error: Option<string>)

  /** JavaScript truthiness of a string-valued field: present and non-empty. */
  predicate Truthy(s: Option<string>)
  {
    s.Some? && s.value != ""
  }

  /** The client's `data.error` test. */
  predicate IsError(r: Reply)
  {
    Truthy(r.error)
  }
}

=== FILE: wrappers.dfy ===
/** Optional values: a JSON field that may be absent (`undefined`) or present. */
module Wrappers {

  datatype Option<+T> = None | Some(value: T)
}
